=== FILE: README.md ===
# Storefront catalog queries and view state

A model of the logic inside a small React storefront: the queries the pages
run over the in-memory product and category collections, and the two pieces
of per-page state that click and keystroke handlers update.

- **Shop listing** (`src/components/ShopPage.tsx`): the product filter
  (category slug AND case-insensitive search in name or description), the
  selected-category lookup, the "N result(s)" text, the specification chips
  on each card, and the page state `{category, search}` plus view mode with
  its handlers (search box, category drop-down, view buttons, "Clear filter",
  "Browse All Products").
- **Product detail** (`src/components/ProductDetailPage.tsx`): lookup by
  exact slug with a not-found view, the photo/sketch image set with its
  fallback, up to three related products, and the image gallery (index and
  photo/sketch flag) with previous/next/jump and the photo/sketch toggle.
- **Featured products** (`src/components/FeaturedProducts.tsx`): the
  featured filter and the two-chip specification preview.

Modules: `Seqs` (stable filter, first-match find, `slice(0, k)` prefix, the
subsequence relation), `Text` (ASCII lowering, `includes`, `split`/`join` on
one character, the chip label), `Catalog` (the `Product`, `Category` and
embedded `CategoryRef` types), `Shop`, `ProductDetail`, `Featured`. The page
state is a class per page (`Shop.ShopView`, `ProductDetail.Gallery`) whose
methods are the event handlers; the product and category collections are
passed in as parameters or constant fields.

Behaviour of the code worth knowing before reading the contracts:

- The gallery index is not reset when the displayed image set changes. The
  photo/sketch buttons (`ProductDetailPage.tsx:144`, `:154`) only set the
  flag and keep the index, so an index that is valid for the photos can point
  past the end of a shorter sketch set. `Gallery.SelectSketches` keeps the
  index and states when it falls out of range, and
  `SketchToggleCanStrandIndex` shows the lost invariant. When the sketch set
  has two images or more, the next "next" press brings the index back into
  range (`Gallery.Next`); "previous" need not. With a single sketch no
  navigation is shown at all, so the index stays out of range until the
  photos are selected again (`SingleSketchStrandsWithoutNavigation`).
- Both filter fields use the empty string for "no filter", and the model does
  the same.
- The search test `!filters.search || …` is redundant: every string includes
  the empty string (`EmptySearchMatchesAnyway`).

## Model

| member | source | states |
|---|---|---|
| Shop.FilteredProducts | src/components/ShopPage.tsx:18-27 | a product is listed iff it is in the catalog and passes both the category test and the search test; the list is a subsequence of the catalog (catalog order kept) |
| Shop.EmptyFilterListsAll | src/components/ShopPage.tsx:19-21 | with empty category and empty search the whole catalog is listed, unchanged and in order |
| Shop.SearchFindsNameIgnoringCase | src/components/ShopPage.tsx:21-23 | a search text equal, up to ASCII letter case, to any slice of the product name matches the product |
| Shop.SearchMatchOccurs | src/components/ShopPage.tsx:21-23 | a non-empty search matches only if its lowered text occurs at some position of the lowered name or the lowered description |
| Shop.EmptySearchMatchesAnyway | src/components/ShopPage.tsx:21-23 | the search test equals the bare "lowered name or description includes lowered search" test; the empty-search guard changes nothing |
| Shop.ClearingCategoryWidens | src/components/ShopPage.tsx:143 | with the category cleared, every product listed before is still listed, in the same relative order |
| Shop.SelectedCategory | src/components/ShopPage.tsx:29 | returns a category of the collection whose slug equals the filter, or None exactly when no category has that slug |
| Shop.SelectedCategoryIsFirst | src/components/ShopPage.tsx:29 | among categories sharing the slug, the first in collection order is selected |
| Shop.ShopView.Count | src/components/ShopPage.tsx:137-138 | the count line shows the number of listed products, "result" without "s" exactly when one product is listed, and echoes the search text exactly when it is non-empty |
| Shop.ShopView.Selected | src/components/ShopPage.tsx:29 | the page's selected category has the slug in the category field and is in the collection; none exactly when no category has that slug |
| Shop.ResultSuffix | src/components/ShopPage.tsx:137 | the suffix is "s" exactly when the count is not 1, and empty otherwise |
| Shop.SearchEcho | src/components/ShopPage.tsx:138 | the echo is empty exactly when the search is empty, else ` for "<search>"` |
| Shop.ShopChips | src/components/ShopPage.tsx:222-227 | at most 2 chips in grid mode and at most 3 in list mode, fewer only when the product has fewer specifications; chip i is the label of specification i |
| Shop.InitialCategory | src/components/ShopPage.tsx:13 | an absent incoming category gives the empty filter; a present one is used as given (the empty string stays empty) |
| Shop.ShopView.constructor | src/components/ShopPage.tsx:12-16 | the page starts with category = initial category or "", search = "", view mode grid |
| Shop.ShopView.EditSearch | src/components/ShopPage.tsx:88 | typing sets the search text and leaves the category and view mode unchanged |
| Shop.ShopView.SelectCategory | src/components/ShopPage.tsx:97 | choosing a category sets it and leaves the search text and view mode unchanged |
| Shop.ShopView.ClearFilter | src/components/ShopPage.tsx:141-143 | offered only while a category is set; clears the category, keeps the search, and everything listed before stays listed in order |
| Shop.ShopView.BrowseAll | src/components/ShopPage.tsx:247-257 | offered only when nothing is listed; clears both fields, after which the whole catalog is listed |
| Shop.ShopView.SetViewMode | src/components/ShopPage.tsx:112-122 | the view buttons change only the view mode; the filter state and the listed products stay the same |
| Featured.FeaturedProducts | src/components/FeaturedProducts.tsx:10 | exactly the featured products of the catalog, in catalog order; no longer than the catalog; empty when nothing is featured |
| Featured.AllFeaturedShowsAll | src/components/FeaturedProducts.tsx:10 | when every product is featured the list is the catalog itself |
| Featured.FeaturedChips | src/components/FeaturedProducts.tsx:99-104 | at most two chips, fewer only when there are fewer specifications; chip i is the label of specification i |
| Text.SpecChips | src/components/ShopPage.tsx:222 | the chips are taken from the front of the specifications: at most k, fewer only when there are fewer specifications |
| Text.ChipLabelIsPrefixBeforeSecondSpace | src/components/ShopPage.tsx:227 | the label of `spec.split(' ').slice(0, 2).join(' ')` is a prefix of the spec holding at most one space, and is either the whole spec or stops right before its second space |
| Text.ChipLabelKeepsShortSpec | src/components/FeaturedProducts.tsx:104 | a specification with at most one space is shown in full |
| Text.JoinSplit | src/components/FeaturedProducts.tsx:104 | joining the pieces of `split(sep)` with `sep` gives back the original string (consecutive separators give empty pieces) |
| Text.SplitJoin | src/components/FeaturedProducts.tsx:104 | splitting the join of separator-free pieces gives back the pieces |
| Text.OccurrenceIsIncluded | src/components/ShopPage.tsx:22 | `includes` is true whenever the needle occurs at some position of the text |
| Text.IncludedHasOccurrence | src/components/ShopPage.tsx:22 | `includes` is true only when the needle occurs at some position of the text |
| Text.LowerSlice | src/components/ShopPage.tsx:22-23 | lowering a slice equals slicing the lowered string |
| ProductDetail.FindProduct | src/components/ProductDetailPage.tsx:11 | returns a catalog product whose slug equals the given one exactly, or None exactly when no product has it |
| ProductDetail.FindProductIsFirst | src/components/ProductDetailPage.tsx:11 | among products sharing the slug, the first in catalog order is found |
| ProductDetail.DetailPage | src/components/ProductDetailPage.tsx:11-32 | the not-found view is shown exactly when no product has the slug; otherwise the shown product is the first one carrying the slug and its related list is exactly that product's related products |
| ProductDetail.ActiveImages | src/components/ProductDetailPage.tsx:31 | the sketches are shown when asked for and non-empty; the photos otherwise, including when sketches were asked for but there are none |
| ProductDetail.ActiveImagesNonEmpty | src/components/ProductDetailPage.tsx:31 | a product with photos always displays a non-empty image set |
| ProductDetail.RelatedProducts | src/components/ProductDetailPage.tsx:32 | at most 3 products, all in the catalog with the same category id and a different id, in catalog order; its length is the number of siblings capped at 3; a sibling at catalog position j with m < 3 siblings before it is entry m of the list, so the list is exactly the first min(3, k) siblings by position, repeated records included; empty exactly when there is no sibling |
| ProductDetail.RelatedKeepsEarlierSiblings | src/components/ProductDetailPage.tsx:32 | in a catalog without repeated records, when a sibling is shown every sibling earlier in the catalog is shown too |
| ProductDetail.RelatedSectionShownIffSibling | src/components/ProductDetailPage.tsx:258 | the related section is rendered exactly when the shown product has a sibling in the catalog |
| ProductDetail.NextIndex | src/components/ProductDetailPage.tsx:94 | "next" always lands in [0, n): one step forward, and from the last image back to 0 |
| ProductDetail.PrevIndex | src/components/ProductDetailPage.tsx:88 | "previous" from a valid index stays in [0, n) |
| ProductDetail.NextTimesRotates | src/components/ProductDetailPage.tsx:94 | k presses of "next" from a valid index i land on (i + k) mod n |
| ProductDetail.NextWrapsAround | src/components/ProductDetailPage.tsx:94 | n presses of "next" return to the starting image |
| ProductDetail.PrevNextInverse | src/components/ProductDetailPage.tsx:88-94 | on valid indices "previous" undoes "next" and "next" undoes "previous" |
| ProductDetail.SingleSketchStrandsWithoutNavigation | src/components/ProductDetailPage.tsx:31 | with exactly one sketch, a photo index of 1 or more is past the end of the sketch set, and that set is too small for any navigation to be shown |
| ProductDetail.SketchToggleCanStrandIndex | src/components/ProductDetailPage.tsx:154 | an index valid for the photos but past the end of a shorter, non-empty sketch set is invalid once the sketches are on |
| ProductDetail.Gallery.constructor | src/components/ProductDetailPage.tsx:12-13 | the gallery opens on index 0 with the photos |
| ProductDetail.Gallery.Previous | src/components/ProductDetailPage.tsx:85-88 | offered only with two images or more; moves to the previous index, wrapping from 0 to the last; keeps a valid index valid; does not touch the photo/sketch flag |
| ProductDetail.Gallery.Next | src/components/ProductDetailPage.tsx:93-94 | offered only with two images or more; moves to (index + 1) mod n, which is always valid; does not touch the flag |
| ProductDetail.Gallery.JumpTo | src/components/ProductDetailPage.tsx:103-129 | a dot or thumbnail (offered only with two images or more) sets the index to its own valid position |
| ProductDetail.Gallery.SelectPhotos | src/components/ProductDetailPage.tsx:141-144 | offered only when the product has sketches; shows the photos and keeps the index |
| ProductDetail.Gallery.SelectSketches | src/components/ProductDetailPage.tsx:141-154 | offered only when the product has sketches; shows the sketches and keeps the index; an index past the last sketch is then out of range, and with a single sketch no navigation is offered |

## Left out

- JSX markup, styling, icons, hover effects, the fixed five stars and "(47 reviews)": presentation only.
- The `onNavigate` routing callback (home, shop, product pages and their slug or category parameter): an external collaborator; the handlers that only call it are not modelled.
- React `useState` / `useMemo` re-rendering and memoisation: the state is a class whose fields the handler methods assign.
- `src/data/mockData` and `src/types` are not part of this model: the collections are parameters and the types are declared here (`_id` is named `id`).
- `toLowerCase` is modelled for ASCII letters only; Unicode and locale case mapping are library behaviour.
- Price rendering (`${product.price}`): number-to-string formatting; the price is kept as a `real` and never computed with.
- The count in "Showing N result(s)" is kept as a number (`Shop.ShopView.Count`); its decimal rendering is number-to-string formatting.
- `src/components/Navigation.tsx`: a mobile-menu open/closed flag (toggled by the menu button, cleared after navigating) and the current-page highlight by string equality; interface chrome outside the catalog logic.
- `src/components/CategoryGrid.tsx`: category card markup, a two-digit index label (`padStart(2, '0')`) and navigation callbacks; presentation only.
- ProductDetail.PrevIndex: states only that a valid index stays valid; from an out-of-range index (possible after the sketch toggle) it steps back by one, as the code does, and the model says nothing more about that case.

=== FILE: catalog.dfy ===
/** The storefront's data model. Both collections are supplied by the data
    provider and never change; products embed a copy of their category's
    identifier, slug and name. */
module Catalog {

  /** The denormalised category data each product carries. */
  datatype CategoryRef = CategoryRef(id: string, slug: string, name: string)

  datatype Category = Category(
    id: string,
    slug: string,
    name: string,
    description: string,
    image: string)

  datatype Product = Product(
    id: string,
    slug: string,
    name: string,
    description: string,
    price: real,
    images: seq<string>,
    sketchImages: seq<string>,
    specifications: seq<string>,
    featured: bool,
    category: CategoryRef)
}

=== FILE: featured.dfy ===
/** The featured-products section of the home page: the products flagged
    `featured`, each card previewing its first two specifications. */
module Featured {
  import opened Seqs
  import opened Text
  import opened Catalog

  function IsFeatured(p: Product): bool
  {
    p.featured
  }

  /** Exactly the featured products, in catalog order; none when nothing is flagged. */
  function FeaturedProducts(products: seq<Product>): (r: seq<Product>)
    ensures forall p :: p in r ==> p in products && p.featured
    ensures forall p :: p in products && p.featured ==> p in r
    ensures IsSubsequence(r, products)
    ensures |r| <= |products|
    ensures (forall p :: p in products ==> !p.featured) ==> r == []
  {
    var r := Filter(products, IsFeatured);
    SubsequenceBounds(r, products);
    assert r != [] ==> r[0] in r;
    r
  }

  /** A catalog in which every product is featured is shown whole. */
  lemma AllFeaturedShowsAll(products: seq<Product>)
    requires forall p :: p in products ==> p.featured
    ensures FeaturedProducts(products) == products
  {
    FilterKeepsAll(products, IsFeatured);
  }

  /** The specification chips of a featured card: at most two, from the front. */
  function FeaturedChips(p: Product): (r: seq<string>)
    ensures |r| <= 2 && |r| <= |p.specifications|
    ensures |r| == 2 || |r| == |p.specifications|
    ensures forall i :: 0 <= i < |r| ==> r[i] == ChipLabel(p.specifications[i])
  {
    SpecChips(p.specifications, 2)
  }
}

=== FILE: product_detail.dfy ===
/** The product detail page: lookup by slug with its not-found view, the
    photo/sketch image set, the related products, and the image gallery's
    state (current index and photo/sketch choice) with its click handlers. */
module ProductDetail {
  import opened Seqs
  import opened Catalog

  /** The number of related products shown. */
  const RelatedLimit: nat := 3

  function HasSlug(slug: string): Product -> bool
  {
    (p: Product) => p.slug == slug
  }

  /** The product whose slug equals `slug` exactly (letter case included), or None. */
  function FindProduct(products: seq<Product>, slug: string): (r: Option<Product>)
    ensures r.Some? ==> r.value in products && r.value.slug == slug
    ensures r.None? <==> forall p :: p in products ==> p.slug != slug
  {
    Find(products, HasSlug(slug))
  }

  /** When slugs repeat, the first product carrying the slug is found. */
  lemma FindProductIsFirst(products: seq<Product>, slug: string, i: nat)
    requires i < |products| && products[i].slug == slug
    requires forall j :: 0 <= j < i ==> products[j].slug != slug
    ensures FindProduct(products, slug) == Some(products[i])
  {
    FindIsFirst(products, HasSlug(slug), i);
  }

  /** The images on display: the sketches when they were asked for and there
      are some, the photos otherwise. */
  function ActiveImages(p: Product, showSketches: bool): (r: seq<string>)
    ensures showSketches && |p.sketchImages| > 0 ==> r == p.sketchImages
    ensures !showSketches || p.sketchImages == [] ==> r == p.images
  {
    if showSketches && |p.sketchImages| > 0 then p.sketchImages else p.images
  }

  /** A product with photos always has something to display, whichever set was chosen. */
  lemma ActiveImagesNonEmpty(p: Product, showSketches: bool)
    requires p.images != []
    ensures ActiveImages(p, showSketches) != []
  {
  }

  /** Another product of the same category. */
  predicate IsSibling(product: Product, q: Product)
  {
    q.category.id == product.category.id && q.id != product.id
  }

  function SiblingOf(product: Product): Product -> bool
  {
    (q: Product) => IsSibling(product, q)
  }

  /** The number of siblings of `product` among the first `j` catalog entries. */
  function SiblingsBefore(products: seq<Product>, product: Product, j: nat): nat
    requires j <= |products|
  {
    |Filter(products[..j], SiblingOf(product))|
  }

  /** Up to three other products of the same category, in catalog order:
      exactly the first three siblings, or all of them when there are fewer. */
  function RelatedProducts(products: seq<Product>, product: Product): (r: seq<Product>)
    ensures |r| <= RelatedLimit
    ensures forall q :: q in r ==> q in products && IsSibling(product, q)
    ensures IsSubsequence(r, products)
    ensures |r| == if SiblingsBefore(products, product, |products|) < RelatedLimit
                   then SiblingsBefore(products, product, |products|) else RelatedLimit
    ensures forall j :: (0 <= j < |products| && IsSibling(product, products[j])
                         && SiblingsBefore(products, product, j) < RelatedLimit) ==>
                        SiblingsBefore(products, product, j) < |r|
                        && r[SiblingsBefore(products, product, j)] == products[j]
    ensures forall q :: q in products && IsSibling(product, q) && q !in r ==> |r| == RelatedLimit
    ensures r == [] <==> forall q :: q in products ==> !IsSibling(product, q)
  {
    var siblings := Filter(products, SiblingOf(product));
    var r := Take(siblings, RelatedLimit);
    TakeIsSubsequence(siblings, RelatedLimit);
    SubsequenceTrans(r, siblings, products);
    SubsequenceBounds(r, siblings);
    assert products[..|products|] == products;
    forall j | 0 <= j < |products| && IsSibling(product, products[j])
                 && SiblingsBefore(products, product, j) < RelatedLimit
      ensures SiblingsBefore(products, product, j) < |r|
      ensures r[SiblingsBefore(products, product, j)] == products[j]
    {
      FilterPosition(products, SiblingOf(product), j);
    }
    assert r != [] ==> r[0] in r;
    r
  }

  /** In a catalog without repeated records, a shown sibling implies every
      earlier sibling is shown too. */
  lemma RelatedKeepsEarlierSiblings(products: seq<Product>, product: Product, i: nat, j: nat)
    requires forall a, b :: 0 <= a < b < |products| ==> products[a] != products[b]
    requires i < j < |products| && IsSibling(product, products[i])
    requires products[j] in RelatedProducts(products, product)
    ensures products[i] in RelatedProducts(products, product)
  {
    var r := RelatedProducts(products, product);
    assert r == Take(Filter(products, SiblingOf(product)), RelatedLimit);
    var k :| 0 <= k < |r| && r[k] == products[j];
    FilterIndexUnique(products, SiblingOf(product), j, k);
    FilterPrefixGrows(products, SiblingOf(product), i, j);
  }

  /** What the page shows for a slug: the dedicated not-found view, or the
      product with its related products. */
  datatype DetailView = NotFound | Detail(product: Product, related: seq<Product>)

  function DetailPage(products: seq<Product>, slug: string): (v: DetailView)
    ensures v.NotFound? <==> forall p :: p in products ==> p.slug != slug
    ensures v.Detail? ==> v.product in products && v.product.slug == slug
    ensures v.Detail? ==> forall q :: q in v.related ==> IsSibling(v.product, q)
    ensures v.Detail? ==> Some(v.product) == FindProduct(products, slug)
    ensures v.Detail? ==> v.related == RelatedProducts(products, v.product)
  {
    match FindProduct(products, slug)
    case None => NotFound
    case Some(p) => Detail(p, RelatedProducts(products, p))
  }

  /** The "Similar Vibes" section is rendered only when there is something to show. */
  predicate RelatedSectionShown(v: DetailView)
  {
    v.Detail? && v.related != []
  }

  /** The section appears exactly when the product has a sibling in the catalog. */
  lemma RelatedSectionShownIffSibling(products: seq<Product>, slug: string)
    requires DetailPage(products, slug).Detail?
    ensures RelatedSectionShown(DetailPage(products, slug))
        <==> exists q :: q in products && IsSibling(DetailPage(products, slug).product, q)
  {
  }

  /** The "next" arrow: one forward, wrapping from the last image to the first. */
  function NextIndex(i: nat, n: nat): (r: nat)
    requires n > 0
    ensures r < n
    ensures i + 1 < n ==> r == i + 1
    ensures i + 1 == n ==> r == 0
  {
    (i + 1) % n
  }

  /** The "previous" arrow: one back, wrapping from the first image to the last. */
  function PrevIndex(i: nat, n: nat): (r: nat)
    requires n > 0
    ensures i < n ==> r < n
  {
    if i == 0 then n - 1 else i - 1
  }

  /** `k` presses of the "next" arrow. */
  function NextTimes(i: nat, n: nat, k: nat): (r: nat)
    requires n > 0
  {
    if k == 0 then i else NextIndex(NextTimes(i, n, k - 1), n)
  }

  /** Pressing "next" `k` times from a valid index moves `k` places round the ring. */
  lemma {:induction false} NextTimesRotates(i: nat, n: nat, k: nat)
    requires i < n
    ensures NextTimes(i, n, k) == (i + k) % n
  {
    if k > 0 {
      NextTimesRotates(i, n, k - 1);
      ModSucc(i + k - 1, n);
    }
  }

  lemma ModSucc(m: nat, n: nat)
    requires n > 0
    ensures (m % n + 1) % n == (m + 1) % n
  {
    var q, r := m / n, m % n;
    assert m == q * n + r;
    if r + 1 < n {
      ModUnique(m + 1, n, q, r + 1);
      ModUnique(r + 1, n, 0, r + 1);
    } else {
      assert m + 1 == (q + 1) * n;
      ModUnique(m + 1, n, q + 1, 0);
      ModUnique(r + 1, n, 1, 0);
    }
  }

  lemma MulAtLeast(k: nat, n: nat)
    requires k >= 1
    ensures k * n >= n
  {
  }

  /** The remainder is the unique value in [0, n) that differs from `a` by a multiple of `n`. */
  lemma ModUnique(a: nat, n: nat, q: nat, r: nat)
    requires n > 0 && r < n && a == q * n + r
    ensures a % n == r
  {
    var q', r' := a / n, a % n;
    assert a == q' * n + r';
    if q' < q {
      MulAtLeast(q - q', n);
    } else if q' > q {
      MulAtLeast(q' - q, n);
    }
  }

  /** Pressing "next" once per image returns to the starting image. */
  lemma NextWrapsAround(i: nat, n: nat)
    requires i < n
    ensures NextTimes(i, n, n) == i
  {
    NextTimesRotates(i, n, n);
    ModUnique(i + n, n, 1, i);
  }

  /** "previous" undoes "next", and "next" undoes "previous", on valid indices. */
  lemma PrevNextInverse(i: nat, n: nat)
    requires i < n
    ensures PrevIndex(NextIndex(i, n), n) == i
    ensures NextIndex(PrevIndex(i, n), n) == i
  {
  }

  /** A valid index whose photo position does not exist among the sketches
      becomes invalid when the sketches are switched on, since the toggle
      keeps the index. */
  lemma SketchToggleCanStrandIndex(p: Product, i: nat)
    requires 0 < |p.sketchImages| <= i < |p.images|
    ensures i < |ActiveImages(p, false)|
    ensures i >= |ActiveImages(p, true)|
  {
  }

  /** With a single sketch no arrows, dots or thumbnails are shown, so an
      index past the first photo stays out of range for as long as the
      sketches are on display. */
  lemma SingleSketchStrandsWithoutNavigation(p: Product, i: nat)
    requires |p.sketchImages| == 1 && 1 <= i < |p.images|
    ensures i < |ActiveImages(p, false)|
    ensures i >= |ActiveImages(p, true)| && |ActiveImages(p, true)| <= 1
  {
  }

  /** The image gallery of one product page. */
  class Gallery {
    const product: Product
    var index: nat
    var showSketches: bool

    /** Opens on the first photo. */
    constructor (product: Product)
      ensures this.product == product
      ensures index == 0 && !showSketches
    {
      this.product := product;
      index := 0;
      showSketches := false;
    }

    /** The image set on display. */
    function Images(): seq<string>
      reads this
    {
      ActiveImages(product, showSketches)
    }

    /** The index names an image of the set on display. */
    predicate InRange()
      reads this
    {
      index < |Images()|
    }

    /** Arrows, dots and thumbnails are shown only when there are two images or more. */
    predicate NavigationOffered()
      reads this
    {
      |Images()| > 1
    }

    /** The photo/sketch buttons are shown only when the product has sketches. */
    predicate ToggleOffered()
      reads this
    {
      |product.sketchImages| > 0
    }

    method Previous()
      requires NavigationOffered()
      modifies this
      ensures showSketches == old(showSketches)
      ensures index == PrevIndex(old(index), |Images()|)
      ensures old(InRange()) ==> InRange()
    {
      index := if index == 0 then |Images()| - 1 else index - 1;
    }

    /** "next" lands on a valid image even from an out-of-range index. */
    method Next()
      requires NavigationOffered()
      modifies this
      ensures showSketches == old(showSketches)
      ensures index == NextIndex(old(index), |Images()|)
      ensures InRange()
    {
      index := (index + 1) % |Images()|;
    }

    /** A progress dot or a thumbnail selects its own position. */
    method JumpTo(j: nat)
      requires NavigationOffered() && j < |Images()|
      modifies this
      ensures showSketches == old(showSketches)
      ensures index == j && InRange()
    {
      index := j;
    }

    /** "Product Photos": switches to the photos and keeps the index. */
    method SelectPhotos()
      requires ToggleOffered()
      modifies this
      ensures !showSketches && index == old(index)
      ensures Images() == product.images
    {
      showSketches := false;
    }

    /** "Design Sketches": switches to the sketches and keeps the index. */
    method SelectSketches()
      requires ToggleOffered()
      modifies this
      ensures showSketches && index == old(index)
      ensures Images() == product.sketchImages
      ensures old(index) >= |product.sketchImages| ==> !InRange()
      ensures |product.sketchImages| == 1 ==> !NavigationOffered()
    {
      showSketches := true;
    }
  }
}

=== FILE: seqs.dfy ===
/** Generic sequence queries shared by the storefront views: the stable filter
    and first-match find that JavaScript's `Array.prototype.filter` and
    `Array.prototype.find` provide, the prefix taken by `slice(0, k)`, and the
    "in original order" relation between a result and its source collection. */
module Seqs {

  datatype Option<+T> = None | Some(value: T)

  /** `a` can be obtained from `b` by deleting elements: every element of `a`
      occurs in `b`, in the same relative order. */
  predicate IsSubsequence<T(==)>(a: seq<T>, b: seq<T>)
    decreases |b|
  {
    if a == [] then true
    else if b == [] then false
    else if a[0] == b[0] then IsSubsequence(a[1..], b[1..])
    else IsSubsequence(a, b[1..])
  }

  /** A subsequence never has more elements than the sequence it comes from,
      and every one of its elements is drawn from there. */
  lemma {:induction false} SubsequenceBounds<T>(a: seq<T>, b: seq<T>)
    requires IsSubsequence(a, b)
    ensures |a| <= |b|
    ensures forall x :: x in a ==> x in b
    decreases |b|
  {
    if a != [] {
      if a[0] == b[0] {
        SubsequenceBounds(a[1..], b[1..]);
        assert a == [a[0]] + a[1..];
      } else {
        SubsequenceBounds(a, b[1..]);
      }
    }
  }

  lemma {:induction false} SubsequenceRefl<T>(a: seq<T>)
    ensures IsSubsequence(a, a)
    decreases |a|
  {
    if a != [] {
      SubsequenceRefl(a[1..]);
    }
  }

  /** Skipping the head of `b` keeps `a` a subsequence of the longer `b`. */
  lemma {:induction false} SubsequenceSkip<T>(a: seq<T>, b: seq<T>)
    requires b != [] && IsSubsequence(a, b[1..])
    ensures IsSubsequence(a, b)
    decreases |b|, |a|
  {
    if a != [] && a[0] == b[0] {
      // a[1..] is a subsequence of b[1..] because a is one of b[1..]
      SubsequenceDropHead(a, b[1..]);
    }
  }

  lemma {:induction false} SubsequenceDropHead<T>(a: seq<T>, b: seq<T>)
    requires a != [] && IsSubsequence(a, b)
    ensures IsSubsequence(a[1..], b)
    decreases |b|, |a|
  {
    if a[0] == b[0] {
      if b[1..] != [] {
        SubsequenceSkip(a[1..], b);
      } else {
        SubsequenceBounds(a[1..], b[1..]);
      }
    } else {
      SubsequenceDropHead(a, b[1..]);
      SubsequenceSkip(a[1..], b);
    }
  }

  lemma {:induction false} SubsequenceTrans<T>(a: seq<T>, b: seq<T>, c: seq<T>)
    requires IsSubsequence(a, b) && IsSubsequence(b, c)
    ensures IsSubsequence(a, c)
    decreases |c|
  {
    if a != [] {
      SubsequenceBounds(a, b);
      SubsequenceBounds(b, c);
      if b[0] == c[0] {
        if a[0] == b[0] {
          SubsequenceTrans(a[1..], b[1..], c[1..]);
        } else {
          SubsequenceTrans(a, b[1..], c[1..]);
          SubsequenceSkip(a, c);
        }
      } else {
        SubsequenceTrans(a, b, c[1..]);
        SubsequenceSkip(a, c);
      }
    }
  }

  /** The first `k` elements (all of them when there are fewer), as `slice(0, k)`. */
  function Take<T>(s: seq<T>, k: nat): (r: seq<T>)
    ensures |r| <= k && |r| <= |s|
    ensures |r| == k || r == s
    ensures forall i :: 0 <= i < |r| ==> r[i] == s[i]
  {
    if |s| <= k then s else s[..k]
  }

  lemma {:induction false} TakeIsSubsequence<T>(s: seq<T>, k: nat)
    ensures IsSubsequence(Take(s, k), s)
    decreases k
  {
    if |s| <= k {
      SubsequenceRefl(s);
    } else if k == 0 {
    } else {
      TakeIsSubsequence(s[1..], k - 1);
      assert Take(s[1..], k - 1) == Take(s, k)[1..];
    }
  }

  /** Stable filter: the elements of `s` that pass `keep`, in their original order. */
  function Filter<T>(s: seq<T>, keep: T -> bool): (r: seq<T>)
    ensures forall x :: x in r ==> x in s && keep(x)
    ensures forall x :: x in s && keep(x) ==> x in r
    ensures IsSubsequence(r, s)
    decreases |s|
  {
    if s == [] then []
    else
      var rest := Filter(s[1..], keep);
      if keep(s[0]) then [s[0]] + rest
      else (SubsequenceSkip(rest, s); rest)
  }

  /** Filtering with a test every element passes returns the sequence itself. */
  lemma {:induction false} FilterKeepsAll<T>(s: seq<T>, keep: T -> bool)
    requires forall x :: x in s ==> keep(x)
    ensures Filter(s, keep) == s
    decreases |s|
  {
    if s != [] {
      FilterKeepsAll(s[1..], keep);
    }
  }

  /** A weaker test keeps a superset, and the stronger result stays in order inside it. */
  lemma {:induction false} FilterMonotone<T>(s: seq<T>, strong: T -> bool, weak: T -> bool)
    requires forall x :: strong(x) ==> weak(x)
    ensures IsSubsequence(Filter(s, strong), Filter(s, weak))
    decreases |s|
  {
    if s != [] {
      FilterMonotone(s[1..], strong, weak);
      var a, b := Filter(s[1..], strong), Filter(s[1..], weak);
      if strong(s[0]) {
        assert Filter(s, strong) == [s[0]] + a;
        assert Filter(s, weak) == [s[0]] + b;
      } else if weak(s[0]) {
        SubsequenceSkip(a, Filter(s, weak));
      }
    }
  }

  /** Filtering distributes over concatenation. */
  lemma {:induction false} FilterAppend<T>(a: seq<T>, b: seq<T>, keep: T -> bool)
    ensures Filter(a + b, keep) == Filter(a, keep) + Filter(b, keep)
    decreases |a|
  {
    if a == [] {
      assert a + b == b;
    } else {
      assert (a + b)[0] == a[0];
      assert (a + b)[1..] == a[1..] + b;
      FilterAppend(a[1..], b, keep);
    }
  }

  /** An element that passes the test sits in the filtered sequence at the
      position given by the number of passing elements before it. */
  lemma FilterPosition<T>(s: seq<T>, keep: T -> bool, j: nat)
    requires j < |s| && keep(s[j])
    ensures |Filter(s[..j], keep)| < |Filter(s, keep)|
    ensures Filter(s, keep)[|Filter(s[..j], keep)|] == s[j]
  {
    assert s == s[..j] + ([s[j]] + s[j + 1..]);
    FilterAppend(s[..j], [s[j]] + s[j + 1..], keep);
    assert ([s[j]] + s[j + 1..])[1..] == s[j + 1..];
  }

  /** An element kept before position `j` makes the kept prefix before `j` longer. */
  lemma FilterPrefixGrows<T>(s: seq<T>, keep: T -> bool, i: nat, j: nat)
    requires i < j <= |s| && keep(s[i])
    ensures |Filter(s[..i], keep)| < |Filter(s[..j], keep)|
  {
    FilterPosition(s[..j], keep, i);
    assert s[..j][..i] == s[..i];
  }

  /** An element absent from both sides of a concatenation can only sit between them. */
  lemma MiddleIndex<T>(x: T, left: seq<T>, right: seq<T>, k: nat)
    requires x !in left && x !in right
    requires k < |left + [x] + right| && (left + [x] + right)[k] == x
    ensures k == |left|
  {
    var whole := left + [x] + right;
    assert forall t :: 0 <= t < |left| ==> whole[t] == left[t] && left[t] in left;
    assert forall t :: |left| < t < |whole| ==> whole[t] == right[t - |left| - 1] && right[t - |left| - 1] in right;
  }

  /** In a sequence without repeats, an element occurs neither before nor after its own position. */
  lemma DistinctElsewhere<T>(s: seq<T>, j: nat)
    requires forall a, b :: 0 <= a < b < |s| ==> s[a] != s[b]
    requires j < |s|
    ensures s[j] !in s[..j] && s[j] !in s[j + 1..]
  {
  }

  /** In a sequence without repeats, the filtered copy of `s[j]` can only sit
      at the position given by the number of kept elements before `j`. */
  lemma FilterIndexUnique<T>(s: seq<T>, keep: T -> bool, j: nat, k: nat)
    requires forall a, b :: 0 <= a < b < |s| ==> s[a] != s[b]
    requires j < |s| && k < |Filter(s, keep)| && Filter(s, keep)[k] == s[j]
    ensures k == |Filter(s[..j], keep)|
  {
    var before, after := s[..j], s[j + 1..];
    DistinctElsewhere(s, j);
    assert Filter(s, keep)[k] in Filter(s, keep);
    assert s == before + ([s[j]] + after);
    FilterAppend(before, [s[j]] + after, keep);
    FilterAppend([s[j]], after, keep);
    assert ([s[j]] + after)[1..] == after;
    MiddleIndex(s[j], Filter(before, keep), Filter(after, keep), k);
  }

  /** First element passing `test`, or None, as `Array.prototype.find`. */
  function Find<T>(s: seq<T>, test: T -> bool): (r: Option<T>)
    ensures r.Some? ==> r.value in s && test(r.value)
    ensures r.None? <==> forall x :: x in s ==> !test(x)
    decreases |s|
  {
    if s == [] then None
    else if test(s[0]) then Some(s[0])
    else Find(s[1..], test)
  }

  /** Find returns the element at the FIRST index that passes the test. */
  lemma {:induction false} FindIsFirst<T>(s: seq<T>, test: T -> bool, i: nat)
    requires i < |s| && test(s[i])
    requires forall j :: 0 <= j < i ==> !test(s[j])
    ensures Find(s, test) == Some(s[i])
    decreases i
  {
    if i > 0 {
      assert !test(s[0]);
      FindIsFirst(s[1..], test, i - 1);
    }
  }
}

=== FILE: shop.dfy ===
/** The shop listing page: the filter that narrows the catalog by category
    slug and case-insensitive search text, the selected-category lookup, the
    result-count text, the specification chips of each listed product, and
    the page's state (filter fields and view mode) with its event handlers. */
module Shop {
  import opened Seqs
  import opened Text
  import opened Catalog

  /** The filter fields; the empty string means "not filtering on this field". */
  datatype FilterState = FilterState(category: string, search: string)

  datatype ViewMode = Grid | List

  predicate MatchesCategory(p: Product, category: string)
  {
    category == "" || p.category.slug == category
  }

  predicate MatchesSearch(p: Product, search: string)
  {
    || search == ""
    || Includes(Lower(p.name), Lower(search))
    || Includes(Lower(p.description), Lower(search))
  }

  predicate Matches(f: FilterState, p: Product)
  {
    MatchesCategory(p, f.category) && MatchesSearch(p, f.search)
  }

  /** The filter as a test on one product. */
  function Keep(f: FilterState): Product -> bool
  {
    p => Matches(f, p)
  }

  /** The products listed for a filter state: exactly those that pass both
      tests, in catalog order. */
  function FilteredProducts(products: seq<Product>, f: FilterState): (r: seq<Product>)
    ensures forall p :: p in r ==> p in products && Matches(f, p)
    ensures forall p :: p in products && Matches(f, p) ==> p in r
    ensures IsSubsequence(r, products)
  {
    Filter(products, Keep(f))
  }

  /** With both fields empty the whole catalog is listed, in order. */
  lemma EmptyFilterListsAll(products: seq<Product>)
    ensures FilteredProducts(products, FilterState("", "")) == products
  {
    FilterKeepsAll(products, Keep(FilterState("", "")));
  }

  /** A search text equal, up to letter case, to a piece of the product's
      name finds the product. */
  lemma SearchFindsNameIgnoringCase(p: Product, search: string, i: nat, j: nat)
    requires i <= j <= |p.name|
    requires Lower(search) == Lower(p.name[i..j])
    ensures MatchesSearch(p, search)
  {
    LowerSlice(p.name, i, j);
    assert OccursAt(Lower(p.name), Lower(search), i);
    OccurrenceIsIncluded(Lower(p.name), Lower(search), i);
  }

  /** Conversely, a non-empty search matches only when its lowered text occurs
      in the lowered name or the lowered description. */
  lemma SearchMatchOccurs(p: Product, search: string)
    requires search != "" && MatchesSearch(p, search)
    ensures || (exists i: nat :: OccursAt(Lower(p.name), Lower(search), i))
            || (exists i: nat :: OccursAt(Lower(p.description), Lower(search), i))
  {
    if Includes(Lower(p.name), Lower(search)) {
      IncludedHasOccurrence(Lower(p.name), Lower(search));
    } else {
      IncludedHasOccurrence(Lower(p.description), Lower(search));
    }
  }

  /** The empty-search test is redundant: every string includes the empty
      string, so an empty search would match without it. */
  lemma EmptySearchMatchesAnyway(p: Product, search: string)
    ensures MatchesSearch(p, search)
        <==> Includes(Lower(p.name), Lower(search)) || Includes(Lower(p.description), Lower(search))
  {
    if search == "" {
      IncludesEmpty(Lower(p.name));
    }
  }

  /** Clearing the category keeps every listed product listed, in order. */
  lemma ClearingCategoryWidens(products: seq<Product>, f: FilterState)
    ensures IsSubsequence(FilteredProducts(products, f),
                          FilteredProducts(products, f.(category := "")))
  {
    FilterMonotone(products, Keep(f), Keep(f.(category := "")));
  }

  /** The category whose slug equals the filter's category field, if any. */
  function SelectedCategory(categories: seq<Category>, slug: string): (r: Option<Category>)
    ensures r.Some? ==> r.value in categories && r.value.slug == slug
    ensures r.None? <==> forall c :: c in categories ==> c.slug != slug
  {
    Find(categories, (c: Category) => c.slug == slug)
  }

  /** When several categories share the slug, the first one is selected. */
  lemma SelectedCategoryIsFirst(categories: seq<Category>, slug: string, i: nat)
    requires i < |categories| && categories[i].slug == slug
    requires forall j :: 0 <= j < i ==> categories[j].slug != slug
    ensures SelectedCategory(categories, slug) == Some(categories[i])
  {
    FindIsFirst(categories, (c: Category) => c.slug == slug, i);
  }

  /** The plural suffix of "result" in the count line. */
  function ResultSuffix(count: nat): (r: string)
    ensures r == "s" || r == ""
    ensures r == "s" <==> count != 1
  {
    if count != 1 then "s" else ""
  }

  /** The echo of the search text after the count; nothing when the search is empty. */
  function SearchEcho(search: string): (r: string)
    ensures r == "" <==> search == ""
    ensures search != "" ==> r == " for \"" + search + "\""
  {
    if search == "" then "" else " for \"" + search + "\""
  }

  /** The "Showing N results for ..." line above the listing. */
  datatype CountLine = CountLine(count: nat, suffix: string, echo: string)

  /** Grid cards preview two specifications, list rows three. */
  function ChipLimit(mode: ViewMode): nat
  {
    if mode == Grid then 2 else 3
  }

  /** The specification chips of a listed product. */
  function ShopChips(p: Product, mode: ViewMode): (r: seq<string>)
    ensures mode == Grid ==> |r| <= 2
    ensures mode == List ==> |r| <= 3
    ensures |r| == ChipLimit(mode) || |r| == |p.specifications|
    ensures |r| <= |p.specifications|
    ensures forall i :: 0 <= i < |r| ==> r[i] == ChipLabel(p.specifications[i])
  {
    SpecChips(p.specifications, ChipLimit(mode))
  }

  /** An empty or absent incoming category means "all categories". */
  function InitialCategory(incoming: Option<string>): (r: string)
    ensures incoming.None? ==> r == ""
    ensures incoming.Some? ==> r == incoming.value
  {
    if incoming.Some? then incoming.value else ""
  }

  /** The shop page's state: the filter fields and the view mode, over the
      fixed product and category collections. */
  class ShopView {
    const catalog: seq<Product>
    const categories: seq<Category>
    var filters: FilterState
    var viewMode: ViewMode

    constructor (catalog: seq<Product>, categories: seq<Category>, initialCategory: Option<string>)
      ensures this.catalog == catalog && this.categories == categories
      ensures filters == FilterState(InitialCategory(initialCategory), "")
      ensures viewMode == Grid
    {
      this.catalog := catalog;
      this.categories := categories;
      filters := FilterState(InitialCategory(initialCategory), "");
      viewMode := Grid;
    }

    /** The listed products. */
    function Results(): seq<Product>
      reads this
    {
      FilteredProducts(catalog, filters)
    }

    /** The category named in the breadcrumb and heading, if any. */
    function Selected(): (r: Option<Category>)
      reads this
      ensures r.Some? ==> r.value in categories && r.value.slug == filters.category
      ensures r.None? <==> forall c :: c in categories ==> c.slug != filters.category
    {
      SelectedCategory(categories, filters.category)
    }

    /** The count line: the number of listed products, "result" pluralised
        unless exactly one is listed, and the search text echoed when there is one. */
    function Count(): (r: CountLine)
      reads this
      ensures r.count == |Results()|
      ensures r.suffix == (if |Results()| == 1 then "" else "s")
      ensures r.echo == "" <==> filters.search == ""
      ensures filters.search != "" ==> r.echo == " for \"" + filters.search + "\""
    {
      CountLine(|Results()|, ResultSuffix(|Results()|), SearchEcho(filters.search))
    }

    /** "Clear filter" is shown only while a category is selected. */
    predicate ClearFilterOffered()
      reads this
    {
      filters.category != ""
    }

    /** "Browse All Products" is shown only on the empty-result view. */
    predicate BrowseAllOffered()
      reads this
    {
      Results() == []
    }

    /** Typing in the search box replaces the search text only. */
    method EditSearch(text: string)
      modifies this
      ensures filters == FilterState(old(filters.category), text)
      ensures viewMode == old(viewMode)
    {
      filters := filters.(search := text);
    }

    /** Choosing in the category drop-down replaces the category only. */
    method SelectCategory(slug: string)
      modifies this
      ensures filters == FilterState(slug, old(filters.search))
      ensures viewMode == old(viewMode)
    {
      filters := filters.(category := slug);
    }

    /** "Clear filter" drops the category and keeps the search text; every
        product listed before is still listed, in the same order. */
    method ClearFilter()
      requires ClearFilterOffered()
      modifies this
      ensures filters == FilterState("", old(filters.search))
      ensures viewMode == old(viewMode)
      ensures IsSubsequence(old(Results()), Results())
    {
      ClearingCategoryWidens(catalog, filters);
      filters := filters.(category := "");
    }

    /** "Browse All Products" clears both fields, which lists the whole catalog. */
    method BrowseAll()
      requires BrowseAllOffered()
      modifies this
      ensures filters == FilterState("", "")
      ensures viewMode == old(viewMode)
      ensures Results() == catalog
    {
      filters := FilterState("", "");
      EmptyFilterListsAll(catalog);
    }

    /** The view-mode buttons change the layout only: the listed products stay the same. */
    method SetViewMode(mode: ViewMode)
      modifies this
      ensures viewMode == mode
      ensures filters == old(filters)
      ensures Results() == old(Results())
    {
      viewMode := mode;
    }
  }
}

=== FILE: text.dfy ===
/** The string operations the storefront applies to product text:
    `toLowerCase` (ASCII letters only), `includes` (substring test),
    `split(sep)` / `join(sep)` on a single separator character, and the
    "spec chip" label `spec.split(' ').slice(0, 2).join(' ')`. */
module Text {
  import opened Seqs

  const Space: char := ' '

  function LowerChar(c: char): char
  {
    if 'A' <= c <= 'Z' then (c as int - 'A' as int + 'a' as int) as char else c
  }

  /** `s.toLowerCase()` restricted to ASCII: upper-case Latin letters are
      lowered, every other character is kept. */
  function Lower(s: string): (r: string)
    ensures |r| == |s|
    ensures forall i :: 0 <= i < |s| ==> r[i] == LowerChar(s[i])
  {
    seq(|s|, i requires 0 <= i < |s| => LowerChar(s[i]))
  }

  /** Lowering commutes with taking a slice. */
  lemma LowerSlice(s: string, i: nat, j: nat)
    requires i <= j <= |s|
    ensures Lower(s[i..j]) == Lower(s)[i..j]
  {
  }

  /** `hay.includes(needle)`: some window of `hay` equals `needle`. */
  function Includes(hay: string, needle: string): bool
    decreases |hay|
  {
    if needle <= hay then true
    else if hay == [] then false
    else Includes(hay[1..], needle)
  }

  /** `needle` occurs in `hay` starting at position `i`. */
  ghost predicate OccursAt(hay: string, needle: string, i: nat)
  {
    i + |needle| <= |hay| && hay[i..i + |needle|] == needle
  }

  /** Includes finds every occurrence. */
  lemma {:induction false} OccurrenceIsIncluded(hay: string, needle: string, i: nat)
    requires OccursAt(hay, needle, i)
    ensures Includes(hay, needle)
    decreases i
  {
    if i > 0 && !(needle <= hay) {
      assert hay[1..][i - 1..i - 1 + |needle|] == hay[i..i + |needle|];
      OccurrenceIsIncluded(hay[1..], needle, i - 1);
    }
  }

  /** Includes only reports real occurrences. */
  lemma {:induction false} IncludedHasOccurrence(hay: string, needle: string)
    requires Includes(hay, needle)
    ensures exists i: nat :: OccursAt(hay, needle, i)
    decreases |hay|
  {
    if needle <= hay {
      assert OccursAt(hay, needle, 0);
    } else {
      IncludedHasOccurrence(hay[1..], needle);
      var i: nat :| OccursAt(hay[1..], needle, i);
      assert hay[1..][i..i + |needle|] == hay[i + 1..i + 1 + |needle|];
      assert OccursAt(hay, needle, i + 1);
    }
  }

  /** The empty string is included in every string. */
  lemma IncludesEmpty(hay: string)
    ensures Includes(hay, "")
  {
  }

  /** Position of the first `c` in `s`. */
  function IndexOf(s: string, c: char): (r: nat)
    requires c in s
    ensures r < |s| && s[r] == c && c !in s[..r]
  {
    if s[0] == c then 0
    else
      var k := IndexOf(s[1..], c);
      assert s[..k + 1] == [s[0]] + s[1..][..k];
      k + 1
  }

  /** `s.split(sep)` for a one-character separator: there is always at least
      one piece, no piece contains the separator, and adjacent separators
      produce empty pieces. */
  function Split(s: string, sep: char): (r: seq<string>)
    ensures |r| >= 1
    ensures forall k :: 0 <= k < |r| ==> sep !in r[k]
    decreases |s|
  {
    if sep !in s then [s]
    else
      var i := IndexOf(s, sep);
      [s[..i]] + Split(s[i + 1..], sep)
  }

  /** `pieces.join(sep)`; the join of no pieces is the empty string. */
  function Join(pieces: seq<string>, sep: char): string
    decreases |pieces|
  {
    if pieces == [] then ""
    else if |pieces| == 1 then pieces[0]
    else pieces[0] + [sep] + Join(pieces[1..], sep)
  }

  /** Joining the pieces of a split gives back the original string. */
  lemma {:induction false} JoinSplit(s: string, sep: char)
    ensures Join(Split(s, sep), sep) == s
    decreases |s|
  {
    if sep in s {
      var i := IndexOf(s, sep);
      JoinSplit(s[i + 1..], sep);
      assert s == s[..i] + [sep] + s[i + 1..];
    }
  }

  /** A separator-free head followed by the separator is split off as the first piece. */
  lemma SplitAfterHead(head: string, sep: char, rest: string)
    requires sep !in head
    ensures Split(head + [sep] + rest, sep) == [head] + Split(rest, sep)
  {
    var s := head + [sep] + rest;
    assert s[|head|] == sep;
    assert s[..|head|] == head;
    var i := IndexOf(s, sep);
    assert i == |head|;
    assert s[i + 1..] == rest;
  }

  /** Splitting a join of separator-free pieces gives back the pieces. */
  lemma {:induction false} SplitJoin(pieces: seq<string>, sep: char)
    requires |pieces| >= 1
    requires forall k :: 0 <= k < |pieces| ==> sep !in pieces[k]
    ensures Split(Join(pieces, sep), sep) == pieces
    decreases |pieces|
  {
    if |pieces| > 1 {
      SplitAfterHead(pieces[0], sep, Join(pieces[1..], sep));
      SplitJoin(pieces[1..], sep);
    }
  }

  /** The label shown on a specification chip: the first two
      space-separated pieces of the specification, rejoined with a space. */
  function ChipLabel(spec: string): string
  {
    Join(Take(Split(spec, Space), 2), Space)
  }

  lemma ChipOfTwoPieces(head: string, rest: string)
    requires Space !in head && Space !in rest
    ensures ChipLabel(head + [Space] + rest) == head + [Space] + rest
    ensures multiset(head + [Space] + rest)[Space] == 1
  {
    SplitJoin([head, rest], Space);
    assert [head, rest][1..] == [rest];
  }

  lemma ChipOfMorePieces(head: string, mid: string, tail: string)
    requires Space !in head && Space !in mid
    ensures ChipLabel(head + [Space] + (mid + [Space] + tail)) == head + [Space] + mid
    ensures multiset(head + [Space] + mid)[Space] == 1
  {
    var rest := mid + [Space] + tail;
    SplitAfterHead(mid, Space, tail);
    SplitAfterHead(head, Space, rest);
    var pieces := [head] + ([mid] + Split(tail, Space));
    assert Split(head + [Space] + rest, Space) == pieces;
    assert Take(pieces, 2) == [head, mid];
    assert Join([head, mid], Space) == head + [Space] + Join([mid], Space);
  }

  /** Prefix-before-second-space, stated for one specification. */
  ghost predicate CutBeforeSecondSpace(spec: string, chip: string)
  {
    && chip <= spec
    && multiset(chip)[Space] <= 1
    && (chip == spec || (spec[|chip|] == Space && multiset(chip)[Space] == 1))
  }

  lemma ChipCaseOneSpace(spec: string, i: nat)
    requires i < |spec| && spec[i] == Space && Space !in spec[..i] && Space !in spec[i + 1..]
    ensures CutBeforeSecondSpace(spec, ChipLabel(spec))
  {
    var head, rest := spec[..i], spec[i + 1..];
    assert spec == head + [Space] + rest;
    ChipOfTwoPieces(head, rest);
  }

  lemma ChipCaseTwoSpaces(spec: string, i: nat, j: nat)
    requires i < |spec| && spec[i] == Space && Space !in spec[..i]
    requires j < |spec[i + 1..]| && spec[i + 1..][j] == Space && Space !in spec[i + 1..][..j]
    ensures CutBeforeSecondSpace(spec, ChipLabel(spec))
  {
    var head, rest := spec[..i], spec[i + 1..];
    var mid, tail := rest[..j], rest[j + 1..];
    assert rest == mid + [Space] + tail;
    assert spec == head + [Space] + rest;
    ChipOfMorePieces(head, mid, tail);
    var chip := head + [Space] + mid;
    assert spec == chip + ([Space] + tail);
  }

  /** The chip label is the longest prefix of the specification that holds
      at most one space: either the whole specification, or the text cut just
      before its second space. */
  lemma ChipLabelIsPrefixBeforeSecondSpace(spec: string)
    ensures CutBeforeSecondSpace(spec, ChipLabel(spec))
  {
    if Space in spec {
      var i := IndexOf(spec, Space);
      if Space !in spec[i + 1..] {
        ChipCaseOneSpace(spec, i);
      } else {
        ChipCaseTwoSpaces(spec, i, IndexOf(spec[i + 1..], Space));
      }
    }
  }

  lemma SpaceAfterPrefix(s: string, prefix: string)
    requires prefix <= s && |prefix| < |s| && s[|prefix|] == Space
    ensures multiset(s)[Space] >= multiset(prefix)[Space] + 1
  {
    var tail := s[|prefix|..];
    assert s == prefix + tail;
    assert tail[0] in multiset(tail);
  }

  /** A specification with at most one space is shown in full. */
  lemma ChipLabelKeepsShortSpec(spec: string)
    requires multiset(spec)[Space] <= 1
    ensures ChipLabel(spec) == spec
  {
    ChipLabelIsPrefixBeforeSecondSpace(spec);
    var chip := ChipLabel(spec);
    if chip != spec {
      SpaceAfterPrefix(spec, chip);
      assert false;
    }
  }

  /** The chips previewing a product's specifications: the first `k`
      specifications, in order, each shown by its chip label. */
  function SpecChips(specs: seq<string>, k: nat): (r: seq<string>)
    ensures |r| <= k && |r| <= |specs|
    ensures |r| == k || |r| == |specs|
    ensures forall i :: 0 <= i < |r| ==> r[i] == ChipLabel(specs[i])
  {
    var shown := Take(specs, k);
    seq(|shown|, i requires 0 <= i < |shown| => ChipLabel(shown[i]))
  }
}
